=== FILE: README.md ===
# go_clog rotating logger — a Dafny model

`go_clog` is a small logging package. A program configures it once with
`DoInit`, may change which message levels are visible with `ChangeShow`,
logs with `LogMsg`, and releases the log file with `DoExit`. When file
output and rotation are on, every `LogMsg` of a visible level first runs `doRotate`: if the
active log file plus the new message would reach `RotateSize` bytes, the
active file becomes backup `<path>.01`, older backups move up one slot
(`.01` → `.02`, …), at most `RotateCnt` backups are kept, and a fresh
active file is opened.

This project models that core over an abstract file system and proves
what the rotation does to the backups, how each operation fails, and the
invariant the logger's state keeps.

- `naming.dfy` (`Naming`): the `"%s.%02d"` backup names, the
  `RotateCnt` bounds, and a parse-back proof that distinct slots have
  distinct names.
- `filesystem.dfy` (`FileSystem`): the file system as a map from path to
  bytes. Each OS call the logger makes is one primitive. I/O errors come
  from a `faults` parameter: a call fails when it is in that set. Calls
  also fail when the file they need is missing. `FailStop` says that a
  sequence of calls stopped at its first failure.
- `rotate.dfy` (`Rotate`): `doRotate` in three stages. `Scan` finds the
  free slot. `Shift` renames the backups up one slot. `Finish` closes the
  handle, moves the active file to slot 1 and reopens it. `Roll` chains the three.
- `rotation_spec.dfy` (`RotationSpec`): a reference definition of one
  rotation as a map from slot number to content. It includes a proof that
  `DoRotate` meets it, and the rule that backups `1..k` become `1..min(k+1, RotateCnt)`.
- `clog.dfy` (`Clog`): the logger's global state as a value, plus
  `DoInit`, `ChangeShow`, `LogMsg` and `DoExit`. It also holds the state
  invariant `Good` and the size bound after a successful write.

Nondeterminism is handled with parameters. The `faults` set picks which
calls fail. The formatted message line (`line`) is an opaque byte string.
Lines written to standard output are kept in `stdout`.

## Behaviour worth knowing

Three behaviours of `DoInit` follow directly from its code and are easy to miss:

- `DoInit` with `OutputToFile` false succeeds without touching the handle, so a
  handle opened by an earlier `DoInit` stays open.
- `DoInit` leaves the file it opened on disk even when it then rejects the
  rotation bounds (it only closes the handle).
- `DoInit`, when it opens a new file, overwrites the previous handle without
  closing it.

## Model

| member | source | states |
|---|---|---|
| Naming.Pad2 | clog/clog.go:42-57 | every slot number up to the maximum count of 99 prints as exactly two decimal digits |
| Naming.Pad2RoundTrip | clog/clog.go:57 | reading back the digits that `%02d` prints gives the slot number |
| Naming.SlotNameInjective | clog/clog.go:53-57 | two backup names of the same log file are equal exactly when their slot numbers are equal |
| Naming.SlotName | clog/clog.go:53-57 | a backup name extends the log file name by at least three characters (the dot and two digits), and by exactly three for every slot number up to the maximum count of 99 |
| Naming.SlotNamesDistinct | clog/clog.go:53-57 | all slot numbers give pairwise distinct backup names |
| FileSystem.StatSize | clog/clog.go:173-178 | the size query fails exactly when the call faults or the file is missing; otherwise it returns the file's length |
| FileSystem.Exists | clog/clog.go:137-155 | the existence check fails only on an I/O fault; a missing file is the answer false, not an error |
| FileSystem.RemoveFile | clog/clog.go:203-208 | a remove succeeds exactly when it does not fault and the file exists; the file is then gone and no other path changes |
| FileSystem.RenameFile | clog/clog.go:217-239 | a rename succeeds exactly when it does not fault and the source exists; the target then holds the source's content, the source is gone, and no other path changes |
| FileSystem.OpenAppend | clog/clog.go:241-246 | opening with create and append fails only on a fault; an absent file is created empty, an existing one keeps its content, and no other path changes |
| FileSystem.Append | clog/clog.go:301-304 | a write through the handle fails only on a fault; it extends the file by exactly the data and changes no other path |
| Rotate.Scan | clog/clog.go:184-212 | the scan stops at its first failing call; on success the chosen slot is at least the start slot and at most `RotateCnt`; every slot it passed is occupied; the chosen slot was free or is slot `RotateCnt`; and the only change is that slot's removal. It never touches the active file and leaves the files unchanged on error |
| Rotate.Shift | clog/clog.go:214-226 | on success every slot `n` in `2..u` holds what slot `n-1` held, and backup 01 no longer exists. Paths outside slots `1..u` are unchanged. When the source slots exist, it stops at its first failing rename. When a rename fails as the `m`-th rename, the error returned is that call, which is the trace's last. Backups `1..u-m` are untouched, so no rename below the failed one has run |
| Rotate.Finish | clog/clog.go:228-246 | the handle is nil unless the stage succeeds, and then it is open on the log path. The log file's rename to backup 01 comes first and the reopen runs only when the rename succeeds. Both calls come after the close. Success leaves an empty log file and the old content in slot 1. A failed rename of the log file changes no file. After a failed reopen the log path is absent and backup 01 holds the old log. No path other than those two changes |
| Rotate.Roll | clog/clog.go:184-246 | the rotation ends with the handle open on the log path when it succeeds, and with the handle either untouched or nil when it fails (see the four `Rotate.Roll*` lemmas for the rest of its contract) |
| Rotate.RollFailStop | clog/clog.go:184-246 | scan, shift, the rename of the active file to slot 1 and the reopen together stop at the first failing call; success means none failed |
| Rotate.RollOnlyTouchesSlots | clog/clog.go:184-246 | the rotation changes nothing outside the active file and backup slots `1..RotateCnt` |
| Rotate.RollHandleOnError | clog/clog.go:228-246 | after a failure, the handle is set to nil when the failing call came after the close (the rename of the active file or the reopen); otherwise it is left as it was and the active file is unchanged too |
| Rotate.RollKeepsLog | clog/clog.go:184-246 | after a failed rotation the old log content is still at the log path, unless the failing call was the reopen; then the log path is absent and backup 01 holds the old content |
| Rotate.RollSuccess | clog/clog.go:228-246 | after a successful rotation the handle is open on the log path, the log file is empty, and slot 1 holds the old log content |
| Rotate.DoRotate | clog/clog.go:164-249 | a failed size query aborts with nothing changed. Below the threshold (message length plus file size less than `RotateSize`) nothing happens and the result is success. At or above it the backup scan starts. The whole run stops at its first failure and changes only the log file and slots `1..RotateCnt`. An error after the close sets the handle to nil; an earlier error leaves it as it was. Success leaves an empty log file open and the old content in slot 1. A failed rotation never loses the log content: it stays at the log path, or it is in backup 01 when the reopen was the failing call |
| RotationSpec.TargetFrom | clog/clog.go:187-211 | searching upward from slot `n`, the target is at most `RotateCnt`, every slot passed over is occupied, and the target is free or is slot `RotateCnt` |
| RotationSpec.TargetUnique | clog/clog.go:184-211 | a slot satisfies the declarative target condition (lowest free slot, or `RotateCnt` when `1..RotateCnt` are all taken) exactly when it is the slot `Target` computes |
| RotationSpec.ContiguousTarget | clog/clog.go:184-211 | with backups exactly `1..k`, the scan chooses slot `min(k+1, RotateCnt)` |
| RotationSpec.ContiguousRotated | clog/clog.go:184-242 | the reference rotation turns backups `1..k` into backups `1..min(k+1, RotateCnt)`, where slot 1 is the active content and slot `n` is old slot `n-1` |
| RotationSpec.RotationEffect | clog/clog.go:164-249 | after a successful rotation, the backups are exactly the reference rotation with target `Target`. Slot 1 gets the old log. Slots `2..u` get the previous slot's content. Slots above `u` stay the same. The old backup `RotateCnt` is dropped when all slots are taken |
| RotationSpec.RotatePrefix | clog/clog.go:184-242 | when backups are exactly `1..k`, a successful rotation leaves exactly `1..min(k+1, RotateCnt)`. Slot 1 holds the old log and each other slot holds its predecessor's old content |
| RotationSpec.RotationExamples | clog/clog.go:184-230 | with `RotateCnt` 4: backups `.01,.02` become `.01,.02,.03` (log, old `.01`, old `.02`); a full `.01..04` drops old `.04` |
| Clog.ChangeShow | clog/clog.go:315-324 | the four visibility flags are taken from the argument; the configuration, files, handle and output stay the same |
| Clog.DoInit | clog/clog.go:333-381 | succeeds exactly when file output is off, or the open succeeds and (if rotation is on) both bounds are valid. It checks the bounds only when file output and rotation are both on. Success stores the configuration and its visibility flags and, with file output, holds an open handle on an existing file. Failure keeps the old configuration and flags and leaves the handle nil. The open appends and never truncates: an existing log keeps its content, a missing one is created empty, and a failed open changes no file. Only the log path can change on disk |
| Clog.DoExit | clog/clog.go:384-389 | the handle is released and nothing else changes |
| Clog.WriteLine | clog/clog.go:301-304 | a write succeeds exactly when a handle is open and the write does not fault. It appends exactly the line, and a failed write changes no file |
| Clog.LogMsg | clog/clog.go:262-309 | a hidden level changes nothing. A visible line goes to standard output when that is on. With file output off nothing else happens. With rotation on, a failed rotation returns its error and the line is not written. Otherwise the handle is the one the rotation left (or the current one), the call succeeds exactly when that handle is open and the write does not fault, the line is then appended to that file, a failed write changes no file, and no other path changes |
| Clog.InitialGood | clog/clog.go:82-91 | the program-start state satisfies the logger invariant |
| Clog.DoInitKeepsGood | clog/clog.go:333-381 | initialization keeps the invariant. Stored rotation bounds are valid, and an open handle is on the configured path of an existing file |
| Clog.ChangeShowKeepsGood | clog/clog.go:315-324 | changing visibility keeps the invariant |
| Clog.DoExitKeepsGood | clog/clog.go:384-389 | shutdown keeps the invariant |
| Clog.LogMsgKeepsGood | clog/clog.go:262-309 | logging, including any rotation and its failures, keeps the invariant |
| Clog.LogMsgSizeBound | clog/clog.go:179-182 | after a successful write with rotation on, the log file is below `RotateSize`, unless it holds only the line just written |
| Clog.LogMsgBeforeInit | clog/clog.go:82-91 | before initialization, `LogMsg` at any level succeeds and changes nothing |

## Left out

- The mutex around the write path and the unlocked updates of the configuration and flags are not modelled. Each operation is one atomic step on a state value.
- Message formatting is not modelled: the caller lookup (`runtime.Caller`), the timestamp and the `fmt` expansion. The finished line is the input `line`, and only its bytes and length matter.
- Clog.LogMsg: the console copy of a line is recorded as the line itself. The source prints it with `fmt.Printf(msgData)` (a non-constant format string), so the console shows exactly the file's bytes only when the line contains no `%`; a `%` in the line is expanded a second time on the console.
- Clog.LogMsg: the message level is the four-valued `Level`. The source takes an `int` and indexes the visibility table with it, so a level outside `0..3` panics with an index out of range; that input is not representable here.
- `PrintMsg`, the console echo of the library's own errors, is not modelled because it only writes diagnostics to the console.
- Real operating-system behaviour is not modelled: permissions, partial writes, other processes changing files, and descriptor identity. A handle is the path it was opened on. This is exact here because the handle is always closed before its file is renamed.
- Closing a file is modelled as infallible. The source ignores its error.
- Rotate.DoRotate: does not model the Go `int64` overflow of `msgLen + size`. Sizes are unbounded integers.
- Rotate.DoRotate: its fail-stop property is stated only when the log file exists. When it is missing, the stat fails first and that case has its own clause.
- RotationSpec.RotationEffect: the backups view covers slots `1..99`. Paths beyond that are covered by `Rotate.RollOnlyTouchesSlots` instead.
- Rotate.Shift: on a failed rename the contract says that the failing call is a rename and the last call of the trace, and which backups stay untouched. It does not name the two backup paths of that rename, because comparing backup names built from different slot arithmetic is beyond the solver's budget here.
- Clog.DoInit: the model does not count descriptors, so the previous handle that `DoInit` overwrites without closing is not shown as leaked.
- `example/main.go` is a usage demo, not part of the library.

=== FILE: clog.dfy ===
/**
 The logger's state machine: configuration (`DoInit`), visibility
 (`ChangeShow`), the guarded write path (`LogMsg`) and shutdown
 (`DoExit`).

 The package-level variables of the logger (the stored configuration,
 the four visibility flags and the open log handle) and the file system
 they act on are one `State` value; every operation is a pure function
 from a state to the next state and the error it returns. The formatted
 message line is an opaque byte string: only its content and length
 matter here. Lines written to standard output by `LogMsg` are recorded
 in `stdout`.
 */
module Clog {
  import opened Naming
  import opened FileSystem
  import opened Rotate

  /** Bounds on the rotation size threshold, in bytes. */
  const MinRotateSize: int := 1 * 1024 * 1024
  const MaxRotateSize: int := 256 * 1024 * 1024

  /** The logger's settings (`CLogConfigInfo`). */
  datatype Config = Config(
    outputToStdout: bool,
    outputToFile: bool,
    outputFilePath: Path,
    rotateFile: bool,
    rotateSize: int,
    rotateCnt: int,
    showErr: bool,
    showWrn: bool,
    showInf: bool,
    showDbg: bool)

  /** The zero configuration the logger holds before any initialization. */
  const InitialConfig := Config(false, false, "", false, 0, 0, false, false, false, false)

  datatype Level = MsgErr | MsgWrn | MsgInf | MsgDbg

  /** Which message levels are emitted. */
  datatype Visibility = Visibility(err: bool, wrn: bool, inf: bool, dbg: bool) {
    predicate Shows(level: Level) {
      match level
      case MsgErr => err
      case MsgWrn => wrn
      case MsgInf => inf
      case MsgDbg => dbg
    }
  }

  /** Before any configuration only error messages are shown. */
  const InitialVisibility := Visibility(true, false, false, false)

  datatype LogError =
    | Io(cause: IoError)
    | BadRotateSize(size: int)
    | BadRotateCnt(cnt: int)

  datatype Status = Success | Failure(error: LogError)

  datatype State = State(
    cfg: Config,
    show: Visibility,
    fs: Fs,
    handle: Option<Path>,
    stdout: seq<Bytes>)

  /** The state an operation leaves and the error it returns. */
  datatype Step = Step(state: State, status: Status)

  /** The logger at program start, over whatever files exist. */
  function Initial(fs: Fs): State {
    State(InitialConfig, InitialVisibility, fs, None, [])
  }

  /** The rotation settings `DoInit` accepts. */
  predicate ValidRotation(size: int, cnt: int) {
    && MinRotateSize <= size <= MaxRotateSize
    && MinRotateCnt <= cnt <= MaxRotateCnt
  }

  function VisibilityOf(c: Config): Visibility {
    Visibility(c.showErr, c.showWrn, c.showInf, c.showDbg)
  }

  /** `ChangeShow`: take the four visibility flags from `arg`, nothing else. */
  function ChangeShow(st: State, arg: Config): (r: State)
    ensures r.show.Shows(MsgErr) == arg.showErr
    ensures r.show.Shows(MsgWrn) == arg.showWrn
    ensures r.show.Shows(MsgInf) == arg.showInf
    ensures r.show.Shows(MsgDbg) == arg.showDbg
    ensures r.cfg == st.cfg && r.fs == st.fs && r.handle == st.handle && r.stdout == st.stdout
  {
    st.(show := VisibilityOf(arg))
  }

  /** The configuration is stored, and its flags applied, only on success. */
  function Commit(st: State, arg: Config): State {
    ChangeShow(st.(cfg := arg), arg)
  }

  /**
   `DoInit`: open the log file when file output is wanted, then check the
   rotation bounds when rotation is wanted too. Any error closes the
   handle and keeps the previous configuration.
   */
  function DoInit(st: State, arg: Config, faults: set<IoCall>): (r: Step)
    ensures r.status.Failure? ==>
      && r.state.cfg == st.cfg && r.state.show == st.show
      && r.state.handle == None
    ensures r.status.Success? ==> r.state.cfg == arg && r.state.show == VisibilityOf(arg)
    ensures r.status.Success? <==>
      (arg.outputToFile ==>
        && Open(arg.outputFilePath) !in faults
        && (arg.rotateFile ==> ValidRotation(arg.rotateSize, arg.rotateCnt)))
    // the rotation bounds are only checked when file output and rotation are both on
    ensures r.status.Failure? && !(arg.outputToFile && arg.rotateFile) ==> r.status.error.Io?
    ensures r.status.Success? && arg.outputToFile ==>
      r.state.handle == Some(arg.outputFilePath) && arg.outputFilePath in r.state.fs
    ensures !arg.outputToFile ==> r.state.handle == st.handle && r.state.fs == st.fs
    ensures forall p :: p != arg.outputFilePath ==> Same(st.fs, r.state.fs, p)
    // the open appends and never truncates: an existing log keeps its content,
    // a missing one is created empty, and a failed open changes no file
    ensures arg.outputToFile && Open(arg.outputFilePath) !in faults ==>
      && arg.outputFilePath in r.state.fs
      && r.state.fs[arg.outputFilePath] ==
           if arg.outputFilePath in st.fs then st.fs[arg.outputFilePath] else []
    ensures arg.outputToFile && Open(arg.outputFilePath) in faults ==> r.state.fs == st.fs
    ensures r.state.stdout == st.stdout
  {
    if arg.outputToFile then
      var path := arg.outputFilePath;
      match OpenAppend(st.fs, faults, path)
      case Err(e) =>
        // the failed open leaves the handle nil
        Step(st.(handle := None), Failure(Io(e)))
      case Ok(fs') =>
        var withFile := st.(fs := fs', handle := Some(path));
        if arg.rotateFile && !(MinRotateSize <= arg.rotateSize <= MaxRotateSize) then
          Step(withFile.(handle := None), Failure(BadRotateSize(arg.rotateSize)))
        else if arg.rotateFile && !(MinRotateCnt <= arg.rotateCnt <= MaxRotateCnt) then
          Step(withFile.(handle := None), Failure(BadRotateCnt(arg.rotateCnt)))
        else
          Step(Commit(withFile, arg), Success)
    else
      Step(Commit(st, arg), Success)
  }

  /** `DoExit`: close the log handle if it is open. */
  function DoExit(st: State): (r: State)
    ensures r.handle == None
    ensures r.cfg == st.cfg && r.show == st.show && r.fs == st.fs && r.stdout == st.stdout
  {
    st.(handle := None)
  }

  /** Write a line through the log handle; a nil handle is an error. */
  function WriteLine(st: State, line: Bytes, faults: set<IoCall>): (r: Step)
    ensures r.state.cfg == st.cfg && r.state.show == st.show
    ensures r.state.handle == st.handle && r.state.stdout == st.stdout
    ensures r.status.Success? <==> st.handle.Some? && Write(st.handle.value) !in faults
    ensures r.status.Failure? ==> r.state.fs == st.fs
    ensures r.status.Success? ==> r.state.fs.Keys == st.fs.Keys
    ensures r.status.Success? && st.handle.value in st.fs ==>
      r.state.fs[st.handle.value] == st.fs[st.handle.value] + line
    ensures st.handle.Some? ==> forall p :: p != st.handle.value ==> Same(st.fs, r.state.fs, p)
  {
    match st.handle
    case None => Step(st, Failure(Io(Closed)))
    case Some(p) =>
      match Append(st.fs, faults, p, line)
      case Err(e) => Step(st, Failure(Io(e)))
      case Ok(fs') => Step(st.(fs := fs'), Success)
  }

  /** The rotation `LogMsg` runs before appending `line`. */
  function RotateFor(st: State, line: Bytes, faults: set<IoCall>): Outcome {
    DoRotate(st.fs, st.handle, faults, st.cfg.outputFilePath,
             st.cfg.rotateSize, st.cfg.rotateCnt, |line|)
  }

  /**
   The handle and files the append in `LogMsg` works on: what the rotation
   left when rotation is on, the current ones when it is off.
   */
  function PrepareWrite(st: State, line: Bytes, faults: set<IoCall>): Outcome {
    if st.cfg.rotateFile then RotateFor(st, line, faults) else Outcome(st.fs, st.handle, [], Ok(()))
  }

  /**
   `LogMsg`: a message of a hidden level does nothing. Otherwise the line
   goes to standard output if enabled, and to the log file if enabled,
   after a rotation check with the line's full length; a failed
   rotation means the line is not written to the file.
   */
  function LogMsg(st: State, level: Level, line: Bytes, faults: set<IoCall>): (r: Step)
    ensures !st.show.Shows(level) ==> r == Step(st, Success)
    ensures r.state.cfg == st.cfg && r.state.show == st.show
    ensures r.state.stdout ==
      if st.show.Shows(level) && st.cfg.outputToStdout then st.stdout + [line] else st.stdout
    ensures !st.cfg.outputToFile ==>
      r.status == Success && r.state.fs == st.fs && r.state.handle == st.handle
    // a failed rotation aborts the write: the files are as the rotation left them
    ensures st.show.Shows(level) && st.cfg.outputToFile && st.cfg.rotateFile ==>
      var o := RotateFor(st, line, faults);
      o.status.Err? ==>
        r.status == Failure(Io(o.status.error)) && r.state.fs == o.fs && r.state.handle == o.handle
    // otherwise the line is appended to the file the handle is open on
    ensures st.show.Shows(level) && st.cfg.outputToFile && r.status.Success? ==>
      var before := if st.cfg.rotateFile then RotateFor(st, line, faults).fs else st.fs;
      && r.state.handle.Some?
      && Write(r.state.handle.value) !in faults
      && r.state.fs.Keys == before.Keys
      && (r.state.handle.value in before ==>
            r.state.fs[r.state.handle.value] == before[r.state.handle.value] + line)
    // once the rotation (if any) succeeded, the line is written, and the call
    // succeeds exactly when the handle is open and the write does not fault
    ensures st.show.Shows(level) && st.cfg.outputToFile ==>
      var w := PrepareWrite(st, line, faults);
      w.status.Ok? ==>
        && r.state.handle == w.handle
        && (r.status.Success? <==> w.handle.Some? && Write(w.handle.value) !in faults)
        && (r.status.Failure? ==> r.state.fs == w.fs)
        && (w.handle.Some? ==> forall p :: p != w.handle.value ==> Same(w.fs, r.state.fs, p))
  {
    if !st.show.Shows(level) then
      Step(st, Success)
    else
      var echoed := if st.cfg.outputToStdout then st.(stdout := st.stdout + [line]) else st;
      if !st.cfg.outputToFile then
        Step(echoed, Success)
      else if st.cfg.rotateFile then
        var o := RotateFor(st, line, faults);
        var rotated := echoed.(fs := o.fs, handle := o.handle);
        if o.status.Err? then
          Step(rotated, Failure(Io(o.status.error)))
        else
          WriteLine(rotated, line, faults)
      else
        WriteLine(echoed, line, faults)
  }

  /**
   The invariant every reachable state keeps: a stored configuration with
   file output and rotation has valid bounds; with file output, an open
   handle is on the configured path; and an open handle's file exists.
   */
  predicate Good(st: State) {
    && (st.cfg.outputToFile && st.cfg.rotateFile ==> ValidRotation(st.cfg.rotateSize, st.cfg.rotateCnt))
    && (st.cfg.outputToFile && st.handle.Some? ==> st.handle.value == st.cfg.outputFilePath)
    && (st.handle.Some? ==> st.handle.value in st.fs)
  }

  lemma InitialGood(fs: Fs)
    ensures Good(Initial(fs))
  {
  }

  lemma DoInitKeepsGood(st: State, arg: Config, faults: set<IoCall>)
    requires Good(st)
    ensures Good(DoInit(st, arg, faults).state)
  {
  }

  lemma ChangeShowKeepsGood(st: State, arg: Config)
    requires Good(st)
    ensures Good(ChangeShow(st, arg))
  {
  }

  lemma DoExitKeepsGood(st: State)
    requires Good(st)
    ensures Good(DoExit(st))
  {
  }

  lemma LogMsgKeepsGood(st: State, level: Level, line: Bytes, faults: set<IoCall>)
    requires Good(st)
    ensures Good(LogMsg(st, level, line, faults).state)
  {
  }

  /**
   With rotation on, a successful `LogMsg` leaves the log file below the
   rotation threshold, unless it holds nothing but the one line just
   written (a line that alone reaches the threshold).
   */
  lemma LogMsgSizeBound(st: State, level: Level, line: Bytes, faults: set<IoCall>)
    requires Good(st)
    requires st.show.Shows(level) && st.cfg.outputToFile && st.cfg.rotateFile
    ensures var r := LogMsg(st, level, line, faults);
      var path := st.cfg.outputFilePath;
      r.status.Success? ==>
        path in r.state.fs && (|r.state.fs[path]| < st.cfg.rotateSize || r.state.fs[path] == line)
  {
  }

  /**
   Before initialization the logger writes nowhere: `LogMsg` succeeds and
   changes nothing, whatever the level.
   */
  lemma LogMsgBeforeInit(fs: Fs, level: Level, line: Bytes, faults: set<IoCall>)
    ensures LogMsg(Initial(fs), level, line, faults) == Step(Initial(fs), Success)
  {
  }
}

=== FILE: filesystem.dfy ===
/**
 An abstract file system for the logger: a finite map from path to file
 content. Each primitive below stands for one operating-system call the
 logger makes (`os.Stat`, `os.Remove`, `os.Rename`, `os.OpenFile`,
 `File.WriteString`). Whether a call hits an I/O error is not something
 the model can know, so it is a parameter: a call fails when it is in the
 caller's `faults` set. On top of that, a call fails the way the
 operating system would when the file it needs is missing.
 */
module FileSystem {
  import opened Naming

  newtype byte = x: int | 0 <= x < 256
  type Bytes = seq<byte>
  type Fs = map<Path, Bytes>

  /** One operating-system call, identified by its arguments. */
  datatype IoCall =
    | Stat(path: Path)
    | Remove(path: Path)
    | Rename(src: Path, dst: Path)
    | Open(path: Path)
    | Write(path: Path)

  datatype IoError =
    | Failed(call: IoCall)    // an I/O error from the environment
    | NotFound(call: IoCall)  // the file the call needs does not exist
    | Closed                  // a write through a nil (closed) handle

  datatype Res<T> = Ok(value: T) | Err(error: IoError)

  /** An open file handle remembers the path it was opened on; None is a nil handle. */
  datatype Option<T> = None | Some(value: T)

  /** The paths a call operates on. */
  function Paths(c: IoCall): set<Path> {
    match c
    case Rename(src, dst) => {src, dst}
    case Stat(p) => {p}
    case Remove(p) => {p}
    case Open(p) => {p}
    case Write(p) => {p}
  }

  /** `p` is present in both or absent from both, with the same content. */
  predicate Same(a: Fs, b: Fs, p: Path) {
    (p in a <==> p in b) && (p in a ==> a[p] == b[p])
  }

  /** Size of a file (`os.Stat(p).Size()`); a missing file is an error. */
  function StatSize(fs: Fs, faults: set<IoCall>, p: Path): (r: Res<nat>)
    ensures r.Ok? <==> Stat(p) !in faults && p in fs
    ensures r.Ok? ==> r.value == |fs[p]|
  {
    if Stat(p) in faults then Err(Failed(Stat(p)))
    else if p !in fs then Err(NotFound(Stat(p)))
    else Ok(|fs[p]|)
  }

  /** `checkFileExist`: a missing file is an answer, not an error. */
  function Exists(fs: Fs, faults: set<IoCall>, p: Path): (r: Res<bool>)
    ensures r.Ok? <==> Stat(p) !in faults
    ensures r.Ok? ==> (r.value <==> p in fs)
  {
    if Stat(p) in faults then Err(Failed(Stat(p))) else Ok(p in fs)
  }

  function RemoveFile(fs: Fs, faults: set<IoCall>, p: Path): (r: Res<Fs>)
    ensures r.Ok? <==> Remove(p) !in faults && p in fs
    ensures r.Ok? ==> p !in r.value && forall q :: q != p ==> Same(fs, r.value, q)
  {
    if Remove(p) in faults then Err(Failed(Remove(p)))
    else if p !in fs then Err(NotFound(Remove(p)))
    else Ok(fs - {p})
  }

  /** `os.Rename`: moves the content, replacing whatever `dst` held. */
  function RenameFile(fs: Fs, faults: set<IoCall>, src: Path, dst: Path): (r: Res<Fs>)
    ensures r.Ok? <==> Rename(src, dst) !in faults && src in fs
    ensures r.Ok? ==> dst in r.value && r.value[dst] == fs[src]
    ensures r.Ok? && src != dst ==> src !in r.value
    ensures r.Ok? ==> forall q :: q != src && q != dst ==> Same(fs, r.value, q)
  {
    if Rename(src, dst) in faults then Err(Failed(Rename(src, dst)))
    else if src !in fs then Err(NotFound(Rename(src, dst)))
    else Ok((fs - {src})[dst := fs[src]])
  }

  /** `os.OpenFile` with create and append: an absent file is created empty. */
  function OpenAppend(fs: Fs, faults: set<IoCall>, p: Path): (r: Res<Fs>)
    ensures r.Ok? <==> Open(p) !in faults
    ensures r.Ok? ==> p in r.value && r.value[p] == (if p in fs then fs[p] else [])
    ensures r.Ok? ==> forall q :: q != p ==> Same(fs, r.value, q)
  {
    if Open(p) in faults then Err(Failed(Open(p)))
    else if p in fs then Ok(fs)
    else Ok(fs[p := []])
  }

  /**
   Appending through a handle opened on `p`. If `p` no longer names a
   file, the bytes go to an unlinked file and no path sees them.
   */
  function Append(fs: Fs, faults: set<IoCall>, p: Path, data: Bytes): (r: Res<Fs>)
    ensures r.Ok? <==> Write(p) !in faults
    ensures r.Ok? && p in fs ==> p in r.value && r.value[p] == fs[p] + data
    ensures r.Ok? ==> r.value.Keys == fs.Keys && forall q :: q != p ==> Same(fs, r.value, q)
  {
    if Write(p) in faults then Err(Failed(Write(p)))
    else if p in fs then Ok(fs[p := fs[p] + data])
    else Ok(fs)
  }

  /**
   A sequence of calls stops at its first failure: every call but the
   last succeeded, and the whole sequence succeeded exactly when the last
   call did.
   */
  predicate FailStop(trace: seq<IoCall>, faults: set<IoCall>, ok: bool) {
    && (forall i :: 0 <= i < |trace| - 1 ==> trace[i] !in faults)
    && (ok <==> (|trace| == 0 || trace[|trace| - 1] !in faults))
  }

  /** A successful run followed by another run stops where the second one does. */
  lemma FailStopThen(t1: seq<IoCall>, t2: seq<IoCall>, faults: set<IoCall>, ok: bool)
    requires FailStop(t1, faults, true)
    ensures FailStop(t2, faults, ok) ==> FailStop(t1 + t2, faults, ok)
  {
  }
}

=== FILE: naming.dfy ===
/**
 Backup file naming of the rotating logger.

 A backup of the log file `base` that sits in slot `n` is called
 `base + "." + <n printed with %02d>`: `log.txt.01`, `log.txt.02`, ...
 The retained-backup count is bounded by 99, so every suffix the logger
 produces has exactly two digits. This module defines the formatting,
 its inverse, and proves that distinct slots get distinct names.
 */
module Naming {

  type Path = string

  /** Bounds on the number of retained backups. */
  const MinRotateCnt: int := 1
  const MaxRotateCnt: int := 99

  predicate IsDigit(c: char) {
    '0' <= c <= '9'
  }

  predicate AllDigits(s: string) {
    forall i :: 0 <= i < |s| ==> IsDigit(s[i])
  }

  function DigitValue(c: char): (d: nat)
    requires IsDigit(c)
    ensures d < 10
  {
    c as int - '0' as int
  }

  function DigitChar(d: nat): (c: char)
    requires d < 10
    ensures IsDigit(c) && DigitValue(c) == d
  {
    ('0' as int + d) as char
  }

  /** What `%d` prints for a non-negative number: its digits, no padding. */
  function Decimal(n: nat): (s: string)
    ensures 1 <= |s| && AllDigits(s)
    ensures n < 100 ==> |s| <= 2
    decreases n
  {
    if n < 10 then [DigitChar(n)] else Decimal(n / 10) + [DigitChar(n % 10)]
  }

  /** The number a string of decimal digits denotes. */
  function DigitsValue(s: string): nat
    requires AllDigits(s)
  {
    if s == [] then 0 else 10 * DigitsValue(s[..|s| - 1]) + DigitValue(s[|s| - 1])
  }

  /** What `%02d` prints for a non-negative number: zero-padded to two digits. */
  function Pad2(n: nat): (s: string)
    ensures 2 <= |s| && AllDigits(s)
    ensures n <= MaxRotateCnt ==> |s| == 2
  {
    if n < 10 then ['0', DigitChar(n)] else Decimal(n)
  }

  /** Name of backup slot `n` of the log file `base` (the `"%s.%02d"` format). */
  function SlotName(base: Path, n: nat): (p: Path)
    ensures |base| + 3 <= |p|
    ensures n <= MaxRotateCnt ==> |p| == |base| + 3
  {
    base + "." + Pad2(n)
  }

  /** A backup name is the log file name, a dot, and the padded slot number. */
  lemma SlotNameParts(base: Path, n: nat)
    ensures var p := SlotName(base, n);
      p[..|base|] == base && p[|base|] == '.' && p[|base| + 1..] == Pad2(n)
  {
  }

  /** Reading back the digits `%d` printed gives the number. */
  lemma {:induction false} DecimalRoundTrip(n: nat)
    ensures DigitsValue(Decimal(n)) == n
    decreases n
  {
    if n >= 10 {
      var s := Decimal(n);
      DecimalRoundTrip(n / 10);
      assert s[..|s| - 1] == Decimal(n / 10);
      assert s[|s| - 1] == DigitChar(n % 10);
    }
  }

  /** Reading back the digits `%02d` printed gives the number. */
  lemma Pad2RoundTrip(n: nat)
    ensures DigitsValue(Pad2(n)) == n
  {
    if n < 10 {
      var s := Pad2(n);
      assert s[..|s| - 1] == ['0'];
      assert DigitsValue(['0'][..0]) == 0;
    } else {
      DecimalRoundTrip(n);
    }
  }

  /** The slot number can be read back from a backup name. */
  lemma SlotNameRoundTrip(base: Path, n: nat)
    ensures AllDigits(SlotName(base, n)[|base| + 1..])
    ensures DigitsValue(SlotName(base, n)[|base| + 1..]) == n
  {
    SlotNameParts(base, n);
    Pad2RoundTrip(n);
  }

  /** Two backup names of the same log file coincide exactly when the slots do. */
  lemma SlotNameInjective(base: Path, m: nat, n: nat)
    ensures SlotName(base, m) == SlotName(base, n) <==> m == n
  {
    if SlotName(base, m) == SlotName(base, n) {
      SlotNameRoundTrip(base, m);
      SlotNameRoundTrip(base, n);
    }
  }

  /** The quantified form of SlotNameInjective: every slot number names a different file. */
  lemma SlotNamesDistinct(base: Path)
    ensures forall m: nat, n: nat :: SlotName(base, m) == SlotName(base, n) ==> m == n
  {
    forall m: nat, n: nat | SlotName(base, m) == SlotName(base, n)
      ensures m == n
    {
      SlotNameInjective(base, m, n);
    }
  }
}

=== FILE: rotate.dfy ===
/**
 Size-based rotation of the log file (`doRotate`).

 Before a message of `msgLen` bytes is appended to the log file `base`,
 the logger checks whether the file would reach `RotateSize`. If so it
   1. scans slots 1, 2, ... for the first backup name that does not
      exist, deleting the last slot `RotateCnt` when all are taken;
   2. renames backup `k-1` to `k` for `k` from that free slot down to 2;
   3. closes the log handle, renames the log file to backup 01, and
   4. reopens (creates) an empty log file.
 The first failing call ends the rotation with that error.
 */
module Rotate {
  import opened Naming
  import opened FileSystem

  /** What a phase of the rotation leaves behind: files, calls made, result. */
  datatype Run<T> = Run(fs: Fs, trace: seq<IoCall>, out: Res<T>)

  /** What a rotation leaves behind, including the log handle. */
  datatype Outcome = Outcome(fs: Fs, handle: Option<Path>, trace: seq<IoCall>, status: Res<()>)

  /** The backup names for slots `lo` through `hi`. */
  function Slots(base: Path, lo: nat, hi: int): set<Path> {
    set j: nat | lo <= j <= hi :: SlotName(base, j)
  }

  /** The scan never goes past slot `RotateCnt`, nor past slot 1. */
  function LastSlot(cnt: int): nat {
    if cnt <= 1 then 1 else cnt
  }

  /** No call in `trace` touches the log file itself. */
  predicate AvoidsBase(trace: seq<IoCall>, base: Path) {
    forall i :: 0 <= i < |trace| ==> base !in Paths(trace[i])
  }

  /** The calls a rotation makes after it has closed the log handle. */
  predicate AfterClose(c: IoCall, base: Path) {
    c == Open(base) || (c.Rename? && c.src == base)
  }

  /** After a shift, backup `n` holds what backup `n-1` held before it. */
  predicate HoldsPrevious(before: Fs, after: Fs, base: Path, n: nat) {
    && 1 <= n
    && SlotName(base, n - 1) in before
    && SlotName(base, n) in after
    && after[SlotName(base, n)] == before[SlotName(base, n - 1)]
  }

  /** Backup names below slot `k` and above the log file are not slot `k`'s name. */
  lemma SlotOutsideBelow(base: Path, k: nat)
    ensures SlotName(base, k) !in Slots(base, 1, k - 1)
  {
    if SlotName(base, k) in Slots(base, 1, k - 1) {
      var j: nat :| 1 <= j <= k - 1 && SlotName(base, j) == SlotName(base, k);
      SlotNameInjective(base, j, k);
    }
  }

  /** Every backup from slot `lo` up to, not including, slot `hi` exists. */
  predicate Occupied(fs: Fs, base: Path, lo: nat, hi: int) {
    forall k: nat :: lo <= k < hi ==> SlotName(base, k) in fs
  }

  lemma OccupiedFrom(fs: Fs, base: Path, n: nat, hi: int)
    requires SlotName(base, n) in fs
    ensures Occupied(fs, base, n + 1, hi) ==> Occupied(fs, base, n, hi)
  {
  }

  /**
   The scan for a usable slot, from slot `n` on: stop at the first slot
   whose backup does not exist, or at slot `cnt` after deleting its
   backup. A failed existence check or delete ends the scan.
   */
  function Scan(fs: Fs, faults: set<IoCall>, base: Path, cnt: int, n: nat): (r: Run<nat>)
    requires 1 <= n <= LastSlot(cnt)
    ensures FailStop(r.trace, faults, r.out.Ok?)
    ensures AvoidsBase(r.trace, base)
    ensures 0 < |r.trace| && r.trace[0] == Stat(SlotName(base, n))
    ensures r.out.Err? ==> r.fs == fs
    ensures r.out.Ok? ==>
      && n <= r.out.value <= LastSlot(cnt)
      && Occupied(fs, base, n, r.out.value)
      && (SlotName(base, r.out.value) !in fs || cnt <= r.out.value)
      && r.fs == fs - {SlotName(base, r.out.value)}
    decreases cnt - n
  {
    var p := SlotName(base, n);
    match Exists(fs, faults, p)
    case Err(e) => Run(fs, [Stat(p)], Err(e))
    case Ok(present) =>
      if !present then
        Run(fs, [Stat(p)], Ok(n))
      else if n >= cnt then
        match RemoveFile(fs, faults, p)
        case Err(e) => Run(fs, [Stat(p), Remove(p)], Err(e))
        case Ok(fs') => Run(fs', [Stat(p), Remove(p)], Ok(n))
      else
        var rest := Scan(fs, faults, base, cnt, n + 1);
        OccupiedFrom(fs, base, n, if rest.out.Ok? then rest.out.value else n + 1);
        ScanStepTrace(faults, base, n, rest.trace, rest.out.Ok?);
        Run(rest.fs, [Stat(p)] + rest.trace, rest.out)
  }

  /** The inductive step of Scan's trace properties. */
  lemma ScanStepTrace(faults: set<IoCall>, base: Path, n: nat, rest: seq<IoCall>, ok: bool)
    requires Stat(SlotName(base, n)) !in faults
    requires FailStop(rest, faults, ok) && AvoidsBase(rest, base)
    ensures var t := [Stat(SlotName(base, n))] + rest;
      FailStop(t, faults, ok) && AvoidsBase(t, base)
  {
  }

  /**
   Moves every backup one slot up, `k-1` to `k`, from slot `k` down to
   slot 2. Only backups `1..k` are touched; if all renames succeed,
   slot `n` holds what slot `n-1` held and slot 1 is free.
   */
  function Shift(fs: Fs, faults: set<IoCall>, base: Path, k: int): (r: Run<()>)
    ensures AvoidsBase(r.trace, base)
    ensures forall p :: p !in Slots(base, 1, k) ==> Same(fs, r.fs, p)
    ensures (forall j :: 1 <= j < k ==> SlotName(base, j) in fs) ==> FailStop(r.trace, faults, r.out.Ok?)
    ensures r.out.Ok? ==> forall n :: 2 <= n <= k ==> HoldsPrevious(fs, r.fs, base, n)
    ensures r.out.Ok? && 2 <= k ==> SlotName(base, 1) !in r.fs
    ensures k <= 1 ==> r.fs == fs && r.out.Ok?
    ensures r.out.Err? ==> 0 < |r.trace|
    ensures r.out.Err? ==> ShiftStopped(fs, r.fs, r.trace, r.out.error, base, k)
    decreases k
  {
    if k <= 1 then
      Run(fs, [], Ok(()))
    else
      var src := SlotName(base, k - 1);
      var dst := SlotName(base, k);
      match RenameFile(fs, faults, src, dst)
      case Err(e) => Run(fs, [Rename(src, dst)], Err(e))
      case Ok(fs') =>
        var rest := Shift(fs', faults, base, k - 1);
        ShiftStepFrame(fs, fs', rest.fs, faults, base, k);
        ShiftStepSources(fs, fs', faults, base, k);
        ShiftStepMoved(fs, fs', rest, faults, base, k);
        ShiftStepTrace(fs, fs', rest, faults, base, k);
        ShiftStepError(fs, fs', rest, base, k);
        Run(rest.fs, [Rename(src, dst)] + rest.trace, rest.out)
  }

  /**
   A shift from slot `k` that failed stopped at its last call, a rename
   that is the error it returns, after `k - j + 1` renames: the renames
   below slot `j` did not run, so backups `1..j-1` are as they were.
   */
  predicate ShiftStopped(before: Fs, after: Fs, trace: seq<IoCall>, error: IoError, base: Path, k: int) {
    var j := k - |trace| + 1;
    && 2 <= j <= k
    && !error.Closed? && error.call.Rename? && trace[|trace| - 1] == error.call
    && KeptBelow(before, after, base, j)
  }

  /** Backups `1..j-1` are the same in both file systems. */
  predicate KeptBelow(before: Fs, after: Fs, base: Path, j: int) {
    forall n: nat :: 1 <= n < j ==> Same(before, after, SlotName(base, n))
  }

  /** The inductive step of Shift's error property. */
  lemma ShiftStepError(fs: Fs, fs': Fs, rest: Run<()>, base: Path, k: int)
    requires 2 <= k
    requires rest.out.Err? ==> ShiftStopped(fs', rest.fs, rest.trace, rest.out.error, base, k - 1)
    requires forall j :: 1 <= j < k - 1 ==> Same(fs, fs', SlotName(base, j))
    ensures rest.out.Err? ==>
      ShiftStopped(fs, rest.fs, [Rename(SlotName(base, k - 1), SlotName(base, k))] + rest.trace,
                   rest.out.error, base, k)
  {
    if rest.out.Err? {
      var t := [Rename(SlotName(base, k - 1), SlotName(base, k))] + rest.trace;
      assert t[|t| - 1] == rest.trace[|rest.trace| - 1];
      SameBelow(fs, fs', rest.fs, base, k - 1, (k - 1) - |rest.trace| + 1);
    }
  }

  /** Backups below slot `j` that two steps each keep are kept by both. */
  lemma SameBelow(a: Fs, b: Fs, c: Fs, base: Path, k: int, j: int)
    requires j <= k
    requires forall n :: 1 <= n < k ==> Same(a, b, SlotName(base, n))
    requires KeptBelow(b, c, base, j)
    ensures KeptBelow(a, c, base, j)
  {
  }

  /** The inductive step of Shift's trace properties. */
  lemma ShiftStepTrace(fs: Fs, fs': Fs, rest: Run<()>, faults: set<IoCall>, base: Path, k: int)
    requires 2 <= k
    requires RenameFile(fs, faults, SlotName(base, k - 1), SlotName(base, k)) == Ok(fs')
    requires AvoidsBase(rest.trace, base)
    requires (forall j :: 1 <= j < k - 1 ==> SlotName(base, j) in fs') ==> FailStop(rest.trace, faults, rest.out.Ok?)
    requires forall j :: 1 <= j < k - 1 ==> Same(fs, fs', SlotName(base, j))
    ensures var t := [Rename(SlotName(base, k - 1), SlotName(base, k))] + rest.trace;
      && AvoidsBase(t, base)
      && ((forall j :: 1 <= j < k ==> SlotName(base, j) in fs) ==> FailStop(t, faults, rest.out.Ok?))
  {
  }

  /** The inductive step of Shift's frame: both renamed names lie in `1..k`. */
  lemma ShiftStepFrame(fs: Fs, fs': Fs, after: Fs, faults: set<IoCall>, base: Path, k: int)
    requires 2 <= k
    requires RenameFile(fs, faults, SlotName(base, k - 1), SlotName(base, k)) == Ok(fs')
    requires forall p :: p !in Slots(base, 1, k - 1) ==> Same(fs', after, p)
    ensures forall p :: p !in Slots(base, 1, k) ==> Same(fs, after, p)
  {
    forall p | p !in Slots(base, 1, k)
      ensures Same(fs, after, p)
    {
      assert SlotName(base, k - 1) in Slots(base, 1, k);
      assert SlotName(base, k) in Slots(base, 1, k);
      assert p != SlotName(base, k - 1) && p != SlotName(base, k);
      assert Same(fs, fs', p);
      assert Same(fs', after, p);
    }
  }

  /** The rename of slot `k-1` to `k` leaves the backups below `k-1` alone. */
  lemma ShiftStepBelow(fs: Fs, fs': Fs, faults: set<IoCall>, base: Path, k: int, j: nat)
    requires 2 <= k && 1 <= j < k - 1
    requires RenameFile(fs, faults, SlotName(base, k - 1), SlotName(base, k)) == Ok(fs')
    ensures Same(fs, fs', SlotName(base, j))
  {
    SlotNameInjective(base, j, k - 1);
    SlotNameInjective(base, j, k);
  }

  lemma ShiftStepSources(fs: Fs, fs': Fs, faults: set<IoCall>, base: Path, k: int)
    requires 2 <= k
    requires RenameFile(fs, faults, SlotName(base, k - 1), SlotName(base, k)) == Ok(fs')
    ensures forall j :: 1 <= j < k - 1 ==> Same(fs, fs', SlotName(base, j))
  {
    forall j | 1 <= j < k - 1
      ensures Same(fs, fs', SlotName(base, j))
    {
      ShiftStepBelow(fs, fs', faults, base, k, j);
    }
  }

  /** The inductive step of Shift's move property. */
  lemma ShiftStepMoved(fs: Fs, fs': Fs, rest: Run<()>, faults: set<IoCall>, base: Path, k: int)
    requires 2 <= k
    requires RenameFile(fs, faults, SlotName(base, k - 1), SlotName(base, k)) == Ok(fs')
    requires forall p :: p !in Slots(base, 1, k - 1) ==> Same(fs', rest.fs, p)
    requires rest.out.Ok? ==> forall n :: 2 <= n <= k - 1 ==> HoldsPrevious(fs', rest.fs, base, n)
    requires rest.out.Ok? && 2 <= k - 1 ==> SlotName(base, 1) !in rest.fs
    requires k - 1 <= 1 ==> rest.fs == fs'
    ensures rest.out.Ok? ==> forall n :: 2 <= n <= k ==> HoldsPrevious(fs, rest.fs, base, n)
    ensures rest.out.Ok? ==> SlotName(base, 1) !in rest.fs
  {
    if !rest.out.Ok? { return; }
    var after := rest.fs;
    SlotOutsideBelow(base, k);
    SlotNameInjective(base, k - 1, k);
    forall n | 2 <= n <= k
      ensures HoldsPrevious(fs, after, base, n)
    {
      if n < k {
        assert HoldsPrevious(fs', after, base, n);
        ShiftStepBelow(fs, fs', faults, base, k, n - 1);
      } else {
        assert Same(fs', after, SlotName(base, k));
      }
    }
  }

  /** Backups below the usable slot survive the scan's delete. */
  lemma ScanKeepsBelow(fs: Fs, scanned: Fs, base: Path, u: nat)
    requires 1 <= u
    requires Occupied(fs, base, 1, u)
    requires scanned == fs - {SlotName(base, u)}
    requires base in fs
    ensures forall j :: 1 <= j < u ==> SlotName(base, j) in scanned
    ensures base in scanned && scanned[base] == fs[base]
  {
    forall j | 1 <= j < u
      ensures SlotName(base, j) in scanned
    {
      SlotNameInjective(base, j, u);
    }
  }

  /**
   The last stage of a rotation: the log handle is closed (and set to
   nil), the log file is renamed to backup 01, and the log file is
   reopened, which creates it empty. Both calls come after the close.
   */
  function Finish(fs: Fs, faults: set<IoCall>, base: Path): (o: Outcome)
    ensures 0 < |o.trace| <= 2 && o.trace[0] == Rename(base, SlotName(base, 1))
    ensures |o.trace| == 2 <==> o.trace[0] !in faults && base in fs
    ensures |o.trace| == 2 ==> o.trace[1] == Open(base)
    ensures forall i :: 0 <= i < |o.trace| ==> AfterClose(o.trace[i], base)
    ensures base in fs ==> FailStop(o.trace, faults, o.status.Ok?)
    ensures o.status.Ok? ==> base in fs
    ensures o.handle == if o.status.Ok? then Some(base) else None
    ensures o.status.Ok? ==>
      && base in o.fs && o.fs[base] == []
      && SlotName(base, 1) in o.fs && o.fs[SlotName(base, 1)] == fs[base]
    ensures forall p :: p != base && p != SlotName(base, 1) ==> Same(fs, o.fs, p)
    // a failed rename of the log file changes nothing; after a failed reopen
    // the old log content is in backup 01
    ensures |o.trace| == 1 ==> o.fs == fs
    ensures o.status.Err? && |o.trace| == 2 ==>
      && base !in o.fs
      && SlotName(base, 1) in o.fs && o.fs[SlotName(base, 1)] == fs[base]
  {
    var first := SlotName(base, 1);
    match RenameFile(fs, faults, base, first)
    case Err(e) =>
      Outcome(fs, None, [Rename(base, first)], Err(e))
    case Ok(renamed) =>
      match OpenAppend(renamed, faults, base)
      case Err(e) =>
        Outcome(renamed, None, [Rename(base, first), Open(base)], Err(e))
      case Ok(reopened) =>
        Outcome(reopened, Some(base), [Rename(base, first), Open(base)], Ok(()))
  }

  /**
   The rotation proper, once the size check has called for it: find the
   usable slot, shift the backups below it up by one, then close, rename
   and reopen the log file.
   */
  function Roll(fs: Fs, handle: Option<Path>, faults: set<IoCall>, base: Path, cnt: int): (o: Outcome)
    ensures o.status.Ok? ==> o.handle == Some(base)
    ensures o.status.Err? ==> o.handle == handle || o.handle == None
  {
    var scan := Scan(fs, faults, base, cnt, 1);
    match scan.out
    case Err(e) =>
      Outcome(scan.fs, handle, scan.trace, Err(e))
    case Ok(u) =>
      var shift := Shift(scan.fs, faults, base, u);
      var t := scan.trace + shift.trace;
      if shift.out.Err? then
        Outcome(shift.fs, handle, t, Err(shift.out.error))
      else
        var f := Finish(shift.fs, faults, base);
        f.(trace := t + f.trace)
  }

  /** The rotation stops at its first failing call, provided the log file exists. */
  lemma RollFailStop(fs: Fs, handle: Option<Path>, faults: set<IoCall>, base: Path, cnt: int)
    requires base in fs
    ensures var o := Roll(fs, handle, faults, base, cnt); FailStop(o.trace, faults, o.status.Ok?)
  {
    var scan := Scan(fs, faults, base, cnt, 1);
    if scan.out.Ok? {
      var u := scan.out.value;
      ScanKeepsBelow(fs, scan.fs, base, u);
      var shift := Shift(scan.fs, faults, base, u);
      var t := scan.trace + shift.trace;
      FailStopThen(scan.trace, shift.trace, faults, shift.out.Ok?);
      if shift.out.Ok? {
        RollFrame(fs, scan.fs, shift.fs, base, cnt, u);
        var f := Finish(shift.fs, faults, base);
        FailStopThen(t, f.trace, faults, f.status.Ok?);
      }
    }
  }

  /** Only the log file and backups `1..LastSlot(cnt)` can change in a rotation. */
  lemma RollOnlyTouchesSlots(fs: Fs, handle: Option<Path>, faults: set<IoCall>, base: Path, cnt: int)
    ensures var o := Roll(fs, handle, faults, base, cnt);
      forall p :: p != base && p !in Slots(base, 1, LastSlot(cnt)) ==> Same(fs, o.fs, p)
  {
    var o := Roll(fs, handle, faults, base, cnt);
    var scan := Scan(fs, faults, base, cnt, 1);
    if scan.out.Ok? {
      var u := scan.out.value;
      var shift := Shift(scan.fs, faults, base, u);
      RollFrame(fs, scan.fs, shift.fs, base, cnt, u);
      var first := SlotName(base, 1);
      assert first in Slots(base, 1, LastSlot(cnt));
      var after := if shift.out.Err? then shift.fs else Finish(shift.fs, faults, base).fs;
      assert o.fs == after;
      forall p | p != base && p !in Slots(base, 1, LastSlot(cnt))
        ensures Same(fs, after, p)
      {
        assert Same(fs, shift.fs, p) && p != first;
        assert Same(shift.fs, after, p);
      }
    }
  }

  /**
   A failure before the close leaves the handle as it was and the log
   file untouched; a failure in the rename of the log file or in the
   reopen, which come after the close, leaves the handle nil.
   */
  lemma RollHandleOnError(fs: Fs, handle: Option<Path>, faults: set<IoCall>, base: Path, cnt: int)
    ensures var o := Roll(fs, handle, faults, base, cnt);
      o.status.Err? ==>
        && 0 < |o.trace|
        && o.handle == (if AfterClose(o.trace[|o.trace| - 1], base) then None else handle)
        && (!AfterClose(o.trace[|o.trace| - 1], base) ==> Same(fs, o.fs, base))
  {
    var o := Roll(fs, handle, faults, base, cnt);
    var scan := Scan(fs, faults, base, cnt, 1);
    if o.status.Err? && scan.out.Ok? {
      var shift := Shift(scan.fs, faults, base, scan.out.value);
      RollFrame(fs, scan.fs, shift.fs, base, cnt, scan.out.value);
    }
  }

  /**
   A successful rotation leaves the handle open on a new, empty log file
   and the old log content in backup 01.
   */
  lemma RollSuccess(fs: Fs, handle: Option<Path>, faults: set<IoCall>, base: Path, cnt: int)
    ensures var o := Roll(fs, handle, faults, base, cnt);
      o.status.Ok? ==>
        && base in fs
        && o.handle == Some(base)
        && base in o.fs && o.fs[base] == []
        && SlotName(base, 1) in o.fs && o.fs[SlotName(base, 1)] == fs[base]
  {
    var o := Roll(fs, handle, faults, base, cnt);
    var scan := Scan(fs, faults, base, cnt, 1);
    if o.status.Ok? {
      var u := scan.out.value;
      var shift := Shift(scan.fs, faults, base, u);
      RollFrame(fs, scan.fs, shift.fs, base, cnt, u);
    }
  }

  /**
   A failed rotation never loses the log content: it is still at the log
   path, unless the failing call was the reopen, which finds it in backup 01.
   */
  lemma RollKeepsLog(fs: Fs, handle: Option<Path>, faults: set<IoCall>, base: Path, cnt: int)
    requires base in fs
    ensures var o := Roll(fs, handle, faults, base, cnt);
      o.status.Err? ==>
        && 0 < |o.trace|
        && if o.trace[|o.trace| - 1] == Open(base) then
             && base !in o.fs
             && SlotName(base, 1) in o.fs && o.fs[SlotName(base, 1)] == fs[base]
           else
             base in o.fs && o.fs[base] == fs[base]
  {
    var scan := Scan(fs, faults, base, cnt, 1);
    if scan.out.Ok? {
      var u := scan.out.value;
      ScanKeepsBelow(fs, scan.fs, base, u);
      var shift := Shift(scan.fs, faults, base, u);
      RollFrame(fs, scan.fs, shift.fs, base, cnt, u);
      if shift.out.Err? {
        assert base !in Paths(shift.trace[|shift.trace| - 1]);
      }
    } else {
      assert base !in Paths(scan.trace[|scan.trace| - 1]);
    }
  }

  /** Only the log file and backups `1..LastSlot(cnt)` change in a rotation. */
  lemma RollFrame(fs: Fs, scanned: Fs, shifted: Fs, base: Path, cnt: int, u: nat)
    requires 1 <= u <= LastSlot(cnt)
    requires scanned == fs - {SlotName(base, u)}
    requires forall p :: p !in Slots(base, 1, u) ==> Same(scanned, shifted, p)
    ensures forall p :: p !in Slots(base, 1, LastSlot(cnt)) ==> Same(fs, shifted, p)
    ensures Same(fs, shifted, base)
  {
    assert SlotName(base, u) in Slots(base, 1, LastSlot(cnt));
    forall p | p !in Slots(base, 1, LastSlot(cnt))
      ensures Same(fs, shifted, p)
    {
      assert p !in Slots(base, 1, u);
    }
    assert base !in Slots(base, 1, u);
  }

  /** A rotation starts by checking whether backup 01 exists. */
  lemma RollStartsWithScan(fs: Fs, handle: Option<Path>, faults: set<IoCall>, base: Path, cnt: int)
    ensures var o := Roll(fs, handle, faults, base, cnt);
      0 < |o.trace| && o.trace[0] == Stat(SlotName(base, 1))
  {
  }

  /**
   `doRotate`: before `msgLen` more bytes go to the log file `base`, stat
   it; when its size plus `msgLen` reaches `rotateSize` (equality
   included), rotate. The first failing call ends it with that error.
   */
  function DoRotate(fs: Fs, handle: Option<Path>, faults: set<IoCall>, base: Path,
                    rotateSize: int, cnt: int, msgLen: nat): (o: Outcome)
    // a failed stat of the log file changes nothing
    ensures base !in fs || Stat(base) in faults ==>
      o.status.Err? && o.fs == fs && o.handle == handle && o.trace == [Stat(base)]
    // the rotation (which begins with the slot scan) runs exactly when the threshold is reached
    ensures base in fs && Stat(base) !in faults ==>
      (Stat(SlotName(base, 1)) in o.trace <==> rotateSize <= msgLen + |fs[base]|)
    // below the threshold nothing changes
    ensures base in fs && Stat(base) !in faults && msgLen + |fs[base]| < rotateSize ==>
      o.status.Ok? && o.fs == fs && o.handle == handle
    ensures base in fs ==> FailStop(o.trace, faults, o.status.Ok?)
    ensures forall p :: p != base && p !in Slots(base, 1, LastSlot(cnt)) ==> Same(fs, o.fs, p)
    ensures o.status.Err? ==>
      && 0 < |o.trace|
      && o.handle == (if AfterClose(o.trace[|o.trace| - 1], base) then None else handle)
      // a failure before the close has not touched the log file
      && (!AfterClose(o.trace[|o.trace| - 1], base) ==> Same(fs, o.fs, base))
    // a failed rotation never loses the log content: it stays at the log path,
    // or is in backup 01 when the reopen failed
    ensures o.status.Err? && base in fs ==>
      if o.trace[|o.trace| - 1] == Open(base) then
        && base !in o.fs
        && SlotName(base, 1) in o.fs && o.fs[SlotName(base, 1)] == fs[base]
      else
        base in o.fs && o.fs[base] == fs[base]
    ensures o.status.Ok? && base in fs && rotateSize <= msgLen + |fs[base]| ==>
      && o.handle == Some(base)
      && base in o.fs && o.fs[base] == []
      && SlotName(base, 1) in o.fs && o.fs[SlotName(base, 1)] == fs[base]
  {
    match StatSize(fs, faults, base)
    case Err(e) => Outcome(fs, handle, [Stat(base)], Err(e))
    case Ok(size) =>
      if msgLen + size < rotateSize then
        Outcome(fs, handle, [Stat(base)], Ok(()))
      else
        var o := Roll(fs, handle, faults, base, cnt);
        RollFailStop(fs, handle, faults, base, cnt);
        FailStopThen([Stat(base)], o.trace, faults, o.status.Ok?);
        RollOnlyTouchesSlots(fs, handle, faults, base, cnt);
        RollHandleOnError(fs, handle, faults, base, cnt);
        RollSuccess(fs, handle, faults, base, cnt);
        RollKeepsLog(fs, handle, faults, base, cnt);
        RollStartsWithScan(fs, handle, faults, base, cnt);
        SlotNameInjective(base, 1, 1);
        assert ([Stat(base)] + o.trace)[1] == Stat(SlotName(base, 1));
        o.(trace := [Stat(base)] + o.trace)
  }
}

=== FILE: rotation_spec.dfy ===
/**
 What a rotation does, stated on the backups alone.

 The backups of a log file are viewed as a map from slot number to
 content. A rotation picks a target slot `u` (the lowest free slot up to
 `RotateCnt`, or `RotateCnt` itself when all are taken), moves backup
 `k-1` to `k` for every `k` from `u` down to 2, puts the log content into
 slot 1 and leaves every slot above `u` alone. This module defines that
 transformation independently of the file operations and proves that
 `DoRotate` performs it.
 */
module RotationSpec {
  import opened Naming
  import opened FileSystem
  import opened Rotate

  type Backups = map<nat, Bytes>

  /** The backups of `base` by slot number. */
  function BackupsOf(fs: Fs, base: Path): Backups {
    map n: nat | 1 <= n <= MaxRotateCnt && SlotName(base, n) in fs :: fs[SlotName(base, n)]
  }

  /** `u` is the lowest free slot in `1..cnt`, or `cnt` when all are occupied. */
  predicate IsTarget(b: Backups, cnt: int, u: nat) {
    && 1 <= u <= cnt
    && (forall k: nat :: 1 <= k < u ==> k in b)
    && (u !in b || u == cnt)
  }

  /** Where slot `n` takes its content from in a rotation with target `u`: 0 is the log file. */
  function Source(n: nat, u: nat): nat
    requires 1 <= n
  {
    if n <= u then n - 1 else n
  }

  /** Whether slot `n` is occupied after a rotation with target `u`. */
  predicate Filled(b: Backups, u: nat, n: nat) {
    n == 1 || (1 < n && Source(n, u) in b)
  }

  /** The backups after `active` is rotated in with target slot `u`. */
  function Rotated(b: Backups, active: Bytes, u: nat): Backups {
    map n: nat | 1 <= n <= MaxRotateCnt && Filled(b, u, n) ::
      if n == 1 then active else b[Source(n, u)]
  }

  /** The backups form the unbroken run of slots `1..k`. */
  ghost predicate Contiguous(b: Backups, k: nat) {
    forall n: nat :: n in b <==> 1 <= n <= k
  }

  function Min(a: int, b: int): int {
    if a <= b then a else b
  }

  /** The target slot found by searching upward from slot `n`, as the scan does. */
  function TargetFrom(b: Backups, cnt: int, n: nat): (u: nat)
    requires 1 <= n <= cnt
    ensures n <= u <= cnt
    ensures forall k: nat :: n <= k < u ==> k in b
    ensures u !in b || u == cnt
    decreases cnt - n
  {
    if n !in b || n == cnt then n else TargetFrom(b, cnt, n + 1)
  }

  /** The target slot of a rotation of backups `b` keeping at most `cnt`. */
  function Target(b: Backups, cnt: int): nat
    requires 1 <= cnt
  {
    TargetFrom(b, cnt, 1)
  }

  /** `IsTarget` holds of exactly one slot, the one `Target` computes. */
  lemma TargetUnique(b: Backups, cnt: int, u: nat)
    requires 1 <= cnt
    ensures IsTarget(b, cnt, u) <==> u == Target(b, cnt)
  {
  }

  /** With backups `1..k`, the rotation targets slot `k+1`, or `cnt` once the ring is full. */
  lemma ContiguousTarget(b: Backups, cnt: int, k: nat, u: nat)
    requires Contiguous(b, k) && k <= cnt
    requires IsTarget(b, cnt, u)
    ensures u == Min(k + 1, cnt)
  {
    assert u <= k ==> u in b;
    assert k + 1 < u ==> k + 1 in b;
  }

  /**
   Rotating into backups `1..k` gives backups `1..min(k+1, cnt)`: slot 1
   holds the log content and slot `n` what slot `n-1` held. When `k` is
   `cnt`, the old backup `cnt` is dropped.
   */
  lemma ContiguousRotated(b: Backups, active: Bytes, cnt: int, k: nat, u: nat)
    requires Contiguous(b, k) && k <= cnt <= MaxRotateCnt
    requires IsTarget(b, cnt, u)
    ensures var r := Rotated(b, active, u);
      && Contiguous(r, Min(k + 1, cnt))
      && r[1] == active
      && forall n: nat :: 2 <= n <= Min(k + 1, cnt) ==> r[n] == b[n - 1]
  {
  }

  /**
   One slot after a rotation with target `u`, given what each stage of
   the rotation guarantees about the files.
   */
  lemma SlotAfterRotation(fs: Fs, scanned: Fs, shifted: Fs, after: Fs, base: Path, u: nat, n: nat)
    requires 1 <= u && 1 <= n <= MaxRotateCnt && base in fs
    requires scanned == fs - {SlotName(base, u)}
    requires Occupied(fs, base, 1, u)
    requires forall p :: p !in Slots(base, 1, u) ==> Same(scanned, shifted, p)
    requires forall m :: 2 <= m <= u ==> HoldsPrevious(scanned, shifted, base, m)
    requires forall m: nat :: 2 <= m ==> Same(shifted, after, SlotName(base, m))
    requires SlotName(base, 1) in after && after[SlotName(base, 1)] == fs[base]
    ensures var b := BackupsOf(fs, base);
      var want := Rotated(b, fs[base], u);
      var got := BackupsOf(after, base);
      (n in got <==> n in want) && (n in got ==> got[n] == want[n])
  {
    var p := SlotName(base, n);
    if n == 1 {
    } else if n <= u {
      assert HoldsPrevious(scanned, shifted, base, n);
      assert Same(shifted, after, p);
      SlotNameInjective(base, n - 1, u);
    } else {
      SlotOutsideBelow(base, n);
      assert Slots(base, 1, u) <= Slots(base, 1, n - 1);
      assert Same(scanned, shifted, p);
      assert Same(shifted, after, p);
      SlotNameInjective(base, n, u);
    }
  }

  /** What each stage of a successful rotation guarantees. */
  lemma RotationStages(fs: Fs, handle: Option<Path>, faults: set<IoCall>, base: Path,
                       rotateSize: int, cnt: int, msgLen: nat) returns (u: nat, scanned: Fs, shifted: Fs)
    requires MinRotateCnt <= cnt
    requires base in fs && rotateSize <= msgLen + |fs[base]|
    ensures var o := DoRotate(fs, handle, faults, base, rotateSize, cnt, msgLen);
      o.status.Ok? ==>
        && 1 <= u <= cnt
        && Occupied(fs, base, 1, u) && (SlotName(base, u) !in fs || cnt <= u)
        && scanned == fs - {SlotName(base, u)}
        && (forall p :: p !in Slots(base, 1, u) ==> Same(scanned, shifted, p))
        && (forall m :: 2 <= m <= u ==> HoldsPrevious(scanned, shifted, base, m))
        && (forall m: nat :: 2 <= m ==> Same(shifted, o.fs, SlotName(base, m)))
        && SlotName(base, 1) in o.fs && o.fs[SlotName(base, 1)] == fs[base]
  {
    var d := DoRotate(fs, handle, faults, base, rotateSize, cnt, msgLen);
    if !d.status.Ok? {
      return 1, fs, fs;
    }
    var scan := Scan(fs, faults, base, cnt, 1);
    var o := Roll(fs, handle, faults, base, cnt);
    assert d.fs == o.fs && o.status.Ok?;
    u := scan.out.value;
    scanned := scan.fs;
    var shift := Shift(scan.fs, faults, base, u);
    shifted := shift.fs;
    assert o.fs == Finish(shifted, faults, base).fs;
    FinishKeepsUpperSlots(shifted, faults, base);
  }

  /**
   A successful rotation of `DoRotate` rewrites the backups exactly as
   `Rotated` says, with a target slot that is the lowest free one.
   */
  lemma RotationEffect(fs: Fs, handle: Option<Path>, faults: set<IoCall>, base: Path,
                       rotateSize: int, cnt: int, msgLen: nat)
    requires MinRotateCnt <= cnt <= MaxRotateCnt
    ensures var o := DoRotate(fs, handle, faults, base, rotateSize, cnt, msgLen);
      o.status.Ok? && base in fs && rotateSize <= msgLen + |fs[base]| ==>
        var b := BackupsOf(fs, base);
        BackupsOf(o.fs, base) == Rotated(b, fs[base], Target(b, cnt))
  {
    var o := DoRotate(fs, handle, faults, base, rotateSize, cnt, msgLen);
    if o.status.Ok? && base in fs && rotateSize <= msgLen + |fs[base]| {
      var u, scanned, shifted := RotationStages(fs, handle, faults, base, rotateSize, cnt, msgLen);
      StagesRotate(fs, scanned, shifted, o.fs, base, cnt, u);
      TargetUnique(BackupsOf(fs, base), cnt, u);
    }
  }

  /** The stage guarantees of a successful rotation add up to `Rotated`. */
  lemma StagesRotate(fs: Fs, scanned: Fs, shifted: Fs, after: Fs, base: Path, cnt: int, u: nat)
    requires 1 <= u <= cnt <= MaxRotateCnt && base in fs
    requires Occupied(fs, base, 1, u) && (SlotName(base, u) !in fs || cnt <= u)
    requires scanned == fs - {SlotName(base, u)}
    requires forall p :: p !in Slots(base, 1, u) ==> Same(scanned, shifted, p)
    requires forall m :: 2 <= m <= u ==> HoldsPrevious(scanned, shifted, base, m)
    requires forall m: nat :: 2 <= m ==> Same(shifted, after, SlotName(base, m))
    requires SlotName(base, 1) in after && after[SlotName(base, 1)] == fs[base]
    ensures IsTarget(BackupsOf(fs, base), cnt, u)
    ensures BackupsOf(after, base) == Rotated(BackupsOf(fs, base), fs[base], u)
  {
    var b := BackupsOf(fs, base);
    assert IsTarget(b, cnt, u);
    var want := Rotated(b, fs[base], u);
    var got := BackupsOf(after, base);
    forall n: nat | 1 <= n <= MaxRotateCnt
      ensures (n in got <==> n in want) && (n in got ==> got[n] == want[n])
    {
      SlotAfterRotation(fs, scanned, shifted, after, base, u, n);
    }
    assert got == want;
  }

  /** The close, rename to backup 01 and reopen touch no slot above 1. */
  lemma FinishKeepsUpperSlots(shifted: Fs, faults: set<IoCall>, base: Path)
    ensures var after := Finish(shifted, faults, base).fs;
      forall m: nat :: 2 <= m ==> Same(shifted, after, SlotName(base, m))
  {
    forall m: nat | 2 <= m
      ensures Same(shifted, Finish(shifted, faults, base).fs, SlotName(base, m))
    {
      SlotNameInjective(base, m, 1);
    }
  }

  /**
   The rotation on a contiguous run of backups, as the file system sees
   it: backups `1..k` become backups `1..min(k+1, cnt)`.
   */
  lemma RotatePrefix(fs: Fs, handle: Option<Path>, faults: set<IoCall>, base: Path,
                     rotateSize: int, cnt: int, msgLen: nat, k: nat)
    requires MinRotateCnt <= cnt <= MaxRotateCnt
    requires Contiguous(BackupsOf(fs, base), k) && k <= cnt
    ensures var o := DoRotate(fs, handle, faults, base, rotateSize, cnt, msgLen);
      o.status.Ok? && base in fs && rotateSize <= msgLen + |fs[base]| ==>
        var b := BackupsOf(fs, base);
        var b' := BackupsOf(o.fs, base);
        && Contiguous(b', Min(k + 1, cnt))
        && b'[1] == fs[base]
        && forall n: nat :: 2 <= n <= Min(k + 1, cnt) ==> b'[n] == b[n - 1]
  {
    var o := DoRotate(fs, handle, faults, base, rotateSize, cnt, msgLen);
    RotationEffect(fs, handle, faults, base, rotateSize, cnt, msgLen);
    if o.status.Ok? && base in fs && rotateSize <= msgLen + |fs[base]| {
      var b := BackupsOf(fs, base);
      TargetUnique(b, cnt, Target(b, cnt));
      ContiguousRotated(b, fs[base], cnt, k, Target(b, cnt));
    }
  }

  /**
   The worked examples of the rotation with `RotateCnt = 4`: with
   backups 01 and 02 the target is 03 and they move to 02 and 03; with
   all four taken the target is 04, whose old content is dropped; the
   log content always lands in 01.
   */
  lemma RotationExamples(x1: Bytes, x2: Bytes, x3: Bytes, x4: Bytes, log: Bytes)
    ensures var two := map[1 := x1, 2 := x2];
      && IsTarget(two, 4, 3)
      && Rotated(two, log, 3) == map[1 := log, 2 := x1, 3 := x2]
    ensures var four := map[1 := x1, 2 := x2, 3 := x3, 4 := x4];
      && IsTarget(four, 4, 4)
      && Rotated(four, log, 4) == map[1 := log, 2 := x1, 3 := x2, 4 := x3]
  {
  }
}
